=== FILE: README.md ===
# ab-web-app: the pure derivations of the game-tracking dashboard

This project is a Dafny model of the few deterministic computations inside the
dashboard front end. The rest of the front end is presentation and HTTP calls.
The modelled parts are:

- **Game service** (`GameService`, `game_service.dfy`). `convertResult` turns
  every hand's winner letter into a road tag: banker 1, player 2, tie 3, anything
  else 0. The pair flags are always false. `currentGameData` folds the hand list
  into the player/banker/tie/hand counters and builds one graph point per hand.
  It reads the prediction, the money-management step, the balances, the next bet
  and the units from the last hand only. It also applies the `|| 0` / `|| 1`
  defaults of the JavaScript source.
- **Grid pagination** (`GridPagination`, `grid_pagination.dfy`). This covers the
  "Showing a to b of n records" range and the window of at most five page buttons
  centred on the current page. It also covers the first and last buttons with
  their ellipses, and the Prev/Next targets and disabled states. The rendered
  strip is a sequence of `PageButton(n)` and `Ellipsis` items.
- **Bar chart** (`BarChart`, `bar_chart.dfy`). This covers the shared scale
  `maxAbs`, each bar's height in percent (at least 10), the colour class and the
  label. Profits are exact `real`s. A colour class is `Neutral`, `Green(tier)` or
  `Red(tier)`, with tier 1 to 4.
- **History service** (`HistoryService`, `history_service.dfy`). This is the
  transform `getGameDataById` applies to a response. A failed response gives no
  hands. Otherwise the hands that were won or lost are kept, in order, and each
  is renamed to `{id, result, bet}`.
- **Breakpoints** (`Breakpoint`, `breakpoint.dfy`). This is the classification of
  a window width into `xs` to `2xl`, and the "at least this breakpoint" test of
  `useIsDesktop`.
- **Responsive cell size** (`ResponsiveCellSize`, `responsive_cell_size.dfy`).
  This is the road-cell size (18, 22, 25 or 26) chosen from the window width.
- **Data grid** (`DataGrid`, `data_grid.dfy`). This covers which table body is
  drawn: nothing while loading, the error line, the "no data" line, or one line
  per row plus expansions. It also covers the column span of the full-width
  lines, row expansion, the per-row filter of action buttons and the
  `row.id || idx` key.
- `Seqs` (`seqs.dfy`) holds `Option`, `Result` and the order-preserving
  `Filter` shared by the history service and the data grid.

JavaScript truthiness is written out. A missing number and `0` are both falsy.
So are a missing row id, the id `0` and the id `""`. An empty error string counts
as no error. Widths are `nat`, because the window's inner width is a
non-negative integer.

Three points where the code's behaviour is narrower than a quick reading suggests, and the model follows the code:

- The summary counters satisfy `PlayerCount + BankerCount + TieCount <= HandCount`.
  Equality holds only when every winner is `"P"`, `"B"` or `"T"`, because the code
  counts unrecognised winners in `HandCount` only.
- The bar chart never computes `maxAbs` for empty data. It returns nothing before
  that point, so the "default to 1 on empty input" case does not occur.
- `getHeight` has no explicit ceiling. The 100% bound follows from
  `|profit| <= maxAbs`.

## Model

| member | source | states |
|---|---|---|
| GameService.OrReal | src/services/game.service.ts:25 | `x || d` on a number: a present non-zero value is kept; a missing value or 0 gives the default |
| GameService.OrInt | src/services/game.service.ts:30-31 | the same `x || d` rule on an integer id |
| GameService.Hands | src/services/game.service.ts:16 | `ugResultList || []`: the list when present, otherwise no hands |
| GameService.RoadTag | src/services/game.service.ts:6-9 | the tag is in 0..3, and it is 0 exactly when the winner is not "B", "P" or "T" (no error is raised) |
| GameService.RoadTagRoundTrip | src/services/game.service.ts:6-9 | tags 1..3 and the letters B/P/T are in one-to-one correspondence: decoding a tag gives back the letter, and encoding the letter gives back the tag |
| GameService.ConvertResult | src/services/game.service.ts:4-13 | one cell per hand, same length, cell i carries hand i's tag, and both pair flags are false |
| GameService.ConvertResultAppend | src/services/game.service.ts:5-12 | converting a longer history extends the earlier cells, so order is preserved |
| GameService.ConvertResultDecodes | src/services/game.service.ts:5-12 | every non-zero cell decodes to its hand's winner letter; a cell is 0 exactly for an unrecognised winner |
| GameService.Step | src/services/game.service.ts:47-50 | one forEach step adds 1 to the hand count and adds 1 to the three outcome counters together exactly when the winner is P, B or T |
| GameService.Tally | src/services/game.service.ts:46-51 | the fold counts every hand, and the three outcome counters never exceed the hand count |
| GameService.TallyCountsOccurrences | src/services/game.service.ts:46-51 | each counter equals the number of occurrences of its letter among the winners (multiset count) |
| GameService.TallyComplete | src/services/game.service.ts:46-51 | the three counters add up to the number of hands exactly when every winner is P, B or T |
| GameService.PredictionOf | src/services/game.service.ts:53-62 | Player exactly when not waiting and the prediction is "P"; Banker exactly when not waiting and it is "B"; Wait exactly when the wait flag is set or the letter is neither |
| GameService.GraphData | src/services/game.service.ts:70-77 | one graph point per hand, in order, carrying the hand's Id, Result and Bet |
| GameService.GraphDataPrefix | src/services/game.service.ts:70-77 | the graph of a prefix of the history is the prefix of the graph |
| GameService.CurrentGameData | src/services/game.service.ts:15-80 | the defaults (StartingBalance falsy becomes 0, BaseUnits falsy becomes 1 and is never 0, ids falsy become 0); no hands gives Wait, zero counters and the single placeholder point; otherwise hand count = length, counters bounded by it, prediction/step/balances/bet/units from the last hand, and the graph built from all hands |
| GameService.SummaryCounts | src/services/game.service.ts:46-51 | the summary's player/banker/tie counts are the occurrence counts of P/B/T |
| GameService.SummaryCountsComplete | src/services/game.service.ts:46-51 | the counters sum to HandCount exactly when every winner is recognised |
| GameService.SummaryReadsLastHandOnly | src/services/game.service.ts:53-68 | two non-empty histories that end in the same hand get the same prediction, step index, balance, profit, bet and units |
| GridPagination.StartIndex | src/components/common/GridPagination.tsx:22 | 0 when there are no records; at least 1 otherwise, for a valid page and page size (RecordRangeTiles fixes its value on every page: 1 on page 1 and pageSize more on each following page, so (currentPage-1)·pageSize+1, past the last record too) |
| GridPagination.EndIndex | src/components/common/GridPagination.tsx:23 | never beyond the total or the page's end; it is one of the two |
| GridPagination.RecordRangeWithinTotal | src/components/common/GridPagination.tsx:22-23 | on a page that holds records: 1 <= start <= end <= total, and at most one page size of records |
| GridPagination.RecordRangeTiles | src/components/common/GridPagination.tsx:22-23 | page 1 starts at record 1; page p+1 starts right after page p ends; each page starts pageSize records after the one before; a full page holds exactly pageSize of them; on a page past the last record the start exceeds the end ("Showing 21 to 20 of 20") |
| GridPagination.VisiblePageRange | src/components/common/GridPagination.tsx:26-37 | 1 <= startPage, endPage <= totalPages, at most 5 pages; centred as currentPage-2..currentPage+2 when two pages fit on each side; 1..5 near the start and totalPages-4..totalPages near the end when there are at least 5 pages |
| GridPagination.WindowFullWidth | src/components/common/GridPagination.tsx:28-34 | with totalPages >= 5 and a valid current page, the window has exactly 5 pages |
| GridPagination.WindowContainsCurrent | src/components/common/GridPagination.tsx:26-37 | a valid current page always lies inside the window |
| GridPagination.WindowShowsAllFewPages | src/components/common/GridPagination.tsx:28-34 | with 1 to 4 pages, the window is every page |
| GridPagination.ShowFirst | src/components/common/GridPagination.tsx:76 | the page-1 button is drawn exactly when the window starts after page 1 (its pages are stated by FirstPartPages) |
| GridPagination.LeadingEllipsis | src/components/common/GridPagination.tsx:87 | the leading ellipsis is drawn exactly when the window starts after page 2 (characterised by EllipsisIffHiddenPages; the Ellipsis item of the strip by StripEllipsesMarkGaps) |
| GridPagination.ShowLast | src/components/common/GridPagination.tsx:110 | the last-page button is drawn exactly when the window ends before the last page (its pages are stated by LastPartPages) |
| GridPagination.TrailingEllipsis | src/components/common/GridPagination.tsx:112 | the trailing ellipsis is drawn exactly when the window ends before page totalPages-1 (characterised by EllipsisIffHiddenPages; the Ellipsis item of the strip by StripEllipsesMarkGaps) |
| GridPagination.FirstPart | src/components/common/GridPagination.tsx:76-91 | the page-1 button followed by its ellipsis; its page numbers are stated by FirstPartPages and its ellipsis by StripEllipsesMarkGaps |
| GridPagination.LastPart | src/components/common/GridPagination.tsx:109-125 | the ellipsis followed by the last-page button; its page numbers are stated by LastPartPages and its ellipsis by StripEllipsesMarkGaps |
| GridPagination.Strip | src/components/common/GridPagination.tsx:74-126 | the strip between Prev and Next; its page numbers, ordering and ellipses are stated by StripPages, NoPageTwice and StripEllipsesMarkGaps |
| GridPagination.WindowButtons | src/components/common/GridPagination.tsx:94 | the window renders one button per page from startPage to endPage, in order |
| GridPagination.FirstPartPages | src/components/common/GridPagination.tsx:76-91 | the first-page part shows page 1 exactly when startPage > 1, and no other page |
| GridPagination.LastPartPages | src/components/common/GridPagination.tsx:110-125 | the last-page part shows the last page exactly when endPage < totalPages, and no other page |
| GridPagination.StripPages | src/components/common/GridPagination.tsx:76-125 | the strip's page numbers are: page 1 if startPage > 1, then the window, then the last page if endPage < totalPages |
| GridPagination.NoPageTwice | src/components/common/GridPagination.tsx:76-125 | the strip's page numbers strictly increase, so no page is rendered twice |
| GridPagination.StripSpansAllPages | src/components/common/GridPagination.tsx:76-125 | with at least one page, the strip starts at page 1 and ends at the last page |
| GridPagination.EllipsisIffHiddenPages | src/components/common/GridPagination.tsx:76-125 | the leading ellipsis shows exactly when the first button is shown and page 2 is missing; the trailing one exactly when the last button is shown and page totalPages-1 is missing |
| GridPagination.WindowBesideEnds | src/components/common/GridPagination.tsx:26-37 | whenever a first or last button is drawn, the window between them is not empty |
| GridPagination.StripEllipsesMarkGaps | src/components/common/GridPagination.tsx:76-125 | in the drawn strip, every ellipsis sits between two page buttons that skip at least one page, and two page buttons drawn side by side are consecutive pages |
| GridPagination.PartsMarkGaps | src/components/common/GridPagination.tsx:76-125 | the same gap rule for the first part, window buttons and last part of any window that is non-empty whenever an end button is drawn |
| GridPagination.IncreasingParts | src/components/common/GridPagination.tsx:76-125 | for such a window, page 1, the window's pages and the last page, as drawn, strictly increase |
| GridPagination.StripFirstOfTwenty | src/components/common/GridPagination.tsx:26-125 | page 1 of 20: window 1..5, no first button, buttons 1..5, an ellipsis, then "20" |
| GridPagination.PrevTarget | src/components/common/GridPagination.tsx:67 | never below page 1; one page back when there is one |
| GridPagination.NextTarget | src/components/common/GridPagination.tsx:129 | never beyond totalPages; one page on when there is one |
| GridPagination.PrevDisabled | src/components/common/GridPagination.tsx:68 | Prev is disabled exactly on page 1 (tied to its target by PrevNextDisabledIffStay) |
| GridPagination.NextDisabled | src/components/common/GridPagination.tsx:130 | Next is disabled exactly on page totalPages (tied to its target by PrevNextDisabledIffStay) |
| GridPagination.PrevNextDisabledIffStay | src/components/common/GridPagination.tsx:66-130 | on a valid page, Prev (Next) is disabled exactly when its target is the current page, and both targets stay within 1..totalPages |
| GridPagination.NoPagesBehaviour | src/components/common/GridPagination.tsx:26-130 | with totalPages = 0 the strip is empty and Prev is disabled, but Next is enabled and targets page 0 |
| BarChart.SeqMax | src/components/dashboard/BarChart.tsx:20 | Math.max over the profits: an element that bounds every profit from above |
| BarChart.SeqMin | src/components/dashboard/BarChart.tsx:21 | Math.min over the profits: an element that bounds every profit from below |
| BarChart.MaxAbs | src/components/dashboard/BarChart.tsx:20-22 | maxAbs > 0; every profit magnitude is at most maxAbs; all zero gives 1; otherwise some profit has magnitude exactly maxAbs |
| BarChart.Intensity | src/components/dashboard/BarChart.tsx:36 | the intensity is the profit's magnitude as a fraction of the scale (intensity times maxAbs is the magnitude), so it is non-negative and at most 1 for any profit within the scale |
| BarChart.Height | src/components/dashboard/BarChart.tsx:51-54 | at least 10, at least the percentage, and equal to one of the two |
| BarChart.TierOf | src/components/dashboard/BarChart.tsx:39-48 | tier 4 exactly above 0.75, tier 3 exactly in (0.5, 0.75], tier 2 exactly in (0.25, 0.5], tier 1 exactly at or below 0.25 |
| BarChart.ColourOf | src/components/dashboard/BarChart.tsx:33-49 | neutral exactly for 0, green exactly for positive, red exactly for negative, and the shade is the tier of the intensity |
| BarChart.LabelOf | src/components/dashboard/BarChart.tsx:82-90 | "+" prefix exactly for positive profit; the label is red for negative, green for positive and gray for zero |
| BarChart.Render | src/components/dashboard/BarChart.tsx:16-92 | nothing exactly for empty data; otherwise one bar per profit in order, all against the same maxAbs |
| BarChart.HeightsBounded | src/components/dashboard/BarChart.tsx:51-54 | every bar is between 10% and 100% |
| BarChart.LargestIsFullHeight | src/components/dashboard/BarChart.tsx:20-54 | a profit of magnitude maxAbs gets height 100; unless every value is 0, some bar does |
| BarChart.FullScaleIsFullHeight | src/components/dashboard/BarChart.tsx:51-54 | a profit whose magnitude equals the scale gets height 100 |
| BarChart.AllZeroIsFlat | src/components/dashboard/BarChart.tsx:20-54 | all zero: maxAbs 1, every bar 10% and neutral |
| BarChart.TierMonotone | src/components/dashboard/BarChart.tsx:39-48 | the tier never decreases as the intensity grows |
| BarChart.LargerMagnitudeNotWeaker | src/components/dashboard/BarChart.tsx:33-54 | a larger magnitude is never shorter and, on the same side of zero, never a paler shade |
| BarChart.ExampleMixed | src/components/dashboard/BarChart.tsx:20-90 | [10, -20, 5] gives maxAbs 20, heights 50/100/25, colours green 2, red 4 and green 1, with the matching labels |
| BarChart.ExampleAllZero | src/components/dashboard/BarChart.tsx:20-90 | [0, 0, 0] gives maxAbs 1 and three neutral 10% bars with gray labels |
| HistoryService.Qualifies | src/services/history.service.ts:55 | an item is kept exactly when its Result is "Win" or "Loss" (the membership of the output is stated by KeptHandsMembership) |
| HistoryService.ToHands | src/services/history.service.ts:56-60 | one renamed hand per item, in order, fields copied Id to id, Result to result, Bet to bet |
| HistoryService.KeptHands | src/services/history.service.ts:54-60 | no longer than the input, and every hand's result is "Win" or "Loss" |
| HistoryService.GameHands | src/services/history.service.ts:50-61 | an unsuccessful response gives []; a successful one without data fails (the `.filter` on a missing list throws); otherwise the kept hands |
| HistoryService.KeptHandsAppend | src/services/history.service.ts:54-60 | the hands of a concatenation are the hands of each part, so input order is preserved |
| HistoryService.KeptHandsMembership | src/services/history.service.ts:54-60 | every won or lost item appears, renamed; every output hand is a renamed won or lost input item |
| HistoryService.GameHandsIdempotent | src/services/history.service.ts:55 | running the transform again on its own output returns the same hands |
| Breakpoint.IndexOf | src/hooks/useBreakpoint.ts:39-41 | the index is the breakpoint's first and only position in the order xs, sm, md, lg, xl, 2xl |
| Breakpoint.Classify | src/hooks/useBreakpoint.ts:12-24 | the width is at least the breakpoint's threshold and below the next breakpoint's threshold |
| Breakpoint.ClassifyUnique | src/hooks/useBreakpoint.ts:12-24 | a width gets a breakpoint exactly when it lies in that breakpoint's band, so every width gets exactly one |
| Breakpoint.ClassifyMonotone | src/hooks/useBreakpoint.ts:12-24 | a wider window never gets an earlier breakpoint in the order |
| Breakpoint.IsDesktop | src/hooks/useBreakpoint.ts:36-43 | the current breakpoint is at or after the target in the order; by IsDesktopIffWideEnough, exactly when the width reaches the target's threshold |
| Breakpoint.IsDesktopIffWideEnough | src/hooks/useBreakpoint.ts:36-43 | useIsDesktop(target) holds exactly when the width reaches the target's threshold |
| Breakpoint.IsDesktopReflexive | src/hooks/useBreakpoint.ts:39-43 | every breakpoint is at least itself |
| Breakpoint.IsDesktopDefault | src/hooks/useBreakpoint.ts:36-43 | with the default target 'lg', the result holds exactly for widths of 1024 or more |
| ResponsiveCellSize.CellSize | src/hooks/useResponsiveCellSize.ts:10-20 | the size is one of 18, 22, 25, 26; 18 exactly below 640 and 26 exactly from 1280 on |
| ResponsiveCellSize.CellSizeFollowsBreakpoint | src/hooks/useResponsiveCellSize.ts:10-20 | the size depends only on the breakpoint: xs 18, sm 22, md and lg 25, xl and 2xl 26 |
| ResponsiveCellSize.CellSizeMonotone | src/hooks/useResponsiveCellSize.ts:10-20 | a wider window never gets smaller cells |
| ResponsiveCellSize.MiddleBandsShareSize | src/hooks/useResponsiveCellSize.ts:14-17 | widths 768 to 1279 (md and lg) both give 25 |
| DataGrid.RowId | src/components/common/DataGrid.tsx:103 | a truthy id is the key; a missing id, 0 or "" falls back to the row index |
| DataGrid.ExpansionIsMembership | src/components/common/DataGrid.tsx:50-54 | without ids no row is expanded; the array and the Set forms of the same ids expand the same rows |
| DataGrid.IsRowExpanded | src/components/common/DataGrid.tsx:50-54 | no ids expand nothing; otherwise a row is expanded exactly when its key is among the ids (array or Set alike, by ExpansionIsMembership) |
| DataGrid.HeaderCells | src/components/common/DataGrid.tsx:61-74 | one header per column, in order, plus ACTIONS exactly when there are actions |
| DataGrid.ColSpan | src/components/common/DataGrid.tsx:82 | the column span equals the number of header cells |
| DataGrid.Shown | src/components/common/DataGrid.tsx:126 | an action's button appears for a row exactly when it has no `show` or `show(row)` holds |
| DataGrid.VisibleActions | src/components/common/DataGrid.tsx:125-126 | exactly the actions with no `show` or whose `show(row)` holds |
| DataGrid.HiddenActionsAbsent | src/components/common/DataGrid.tsx:126 | an action whose `show` refuses the row gets no button |
| DataGrid.VisibleActionsAppend | src/components/common/DataGrid.tsx:125-127 | the visible buttons keep the declaration order |
| DataGrid.RowLines | src/components/common/DataGrid.tsx:102-153 | a row gives its data line, keyed by the row id, with one cell per header cell and, when there are actions, the ids of exactly the actions shown for that row in declaration order (none without actions); then an expansion line spanning the header exactly when a renderer is given and the row is expanded |
| DataGrid.ShowsError | src/components/common/DataGrid.tsx:78 | the error line is drawn exactly when an error string is non-empty and nothing is loading |
| DataGrid.ShowsNoData | src/components/common/DataGrid.tsx:88 | the "no data" line is drawn exactly when not loading, no error, and the rows are missing or empty |
| DataGrid.ShowsRows | src/components/common/DataGrid.tsx:98-101 | the rows are drawn exactly when not loading, no error, and there is at least one row (exclusivity stated by BodyStatesExclusive) |
| DataGrid.RowsFrom | src/components/common/DataGrid.tsx:102-156 | the lines of the rows from index `from` on: at least one and at most two per row, every one a data line or an expansion line, starting with a data line (what they are and where expansions sit is stated by RowsFromKeys, RowsFromDataLines, RowsFromExpansions and RowsFromExpansionsUnderRows) |
| DataGrid.Body | src/components/common/DataGrid.tsx:78-156 | loading draws nothing; the error case draws only the error line; the empty case draws only the "no data" line; otherwise the row lines |
| DataGrid.BodyStatesExclusive | src/components/common/DataGrid.tsx:78-101 | the three body states are mutually exclusive, and one of them applies exactly when not loading |
| DataGrid.RowLinesKeys | src/components/common/DataGrid.tsx:102-153 | each row gives exactly one data line, whether or not it is expanded |
| DataGrid.RowsFromKeys | src/components/common/DataGrid.tsx:98-107 | the data lines follow the rows one to one, in order, keyed by the row id with the index fallback |
| DataGrid.RowsFromWidths | src/components/common/DataGrid.tsx:112-153 | every data line has one cell per header cell, and every expansion line spans the header |
| DataGrid.RowLinesParts | src/components/common/DataGrid.tsx:102-153 | a row contributes exactly its own data line (key, width, visible buttons), and its key to the expansion lines exactly when it expands |
| DataGrid.RowsFromDataLines | src/components/common/DataGrid.tsx:102-139 | the data lines, in row order, are one per row, each with the row's key, the header width and the ids of exactly the actions shown for that row |
| DataGrid.RowsFromExpansions | src/components/common/DataGrid.tsx:102-153 | the expansion lines follow, in row order, exactly the rows whose key is expanded while a renderer is given |
| DataGrid.RowsFromExpansionsUnderRows | src/components/common/DataGrid.tsx:107-154 | every expansion line sits directly under the data line of its own row, as both are drawn in one fragment |
| DataGrid.ExpansionsUnderRowsAppend | src/components/common/DataGrid.tsx:102-156 | joining two runs of rows keeps every expansion line under its own row's data line |
| DataGrid.BodyRowsMatchData | src/components/common/DataGrid.tsx:98-156 | when rows are shown: one data line per row, in order, carrying that row's visible buttons; expansion lines exactly for the expanded rows, in order, each directly under its row's data line; every line as wide as the header |

## Left out

- The HTTP calls (`api.get`, `api.post`) and the error-message fallback chains in every service are network I/O. The model starts from the response payload.
- `src/services/dashboard.service.ts` is not part of this model. It only defaults a missing `data` to `[]`.
- The React machinery is not modelled: state hooks, effects, resize listeners and the bar chart's smooth scroll. The hooks' initial values before the first effect runs ('lg', and the default cell size 25) belong to this machinery. The width is a parameter instead.
- The history modal, the layout, the road cell components and the date formatting are presentation or library behaviour (`Intl`, `Date`). They are not part of this model.
- The dashboard page's percentage-change card is outside the modelled core.
- Tailwind class strings are modelled as enumerations. Cell contents, `column.render`, alignment and widths are not modelled. Nor are the page-size selector or the number text of a bar label, beyond its "+" prefix and colour.
- IEEE floating point, including NaN, is not modelled. Profits and money are exact reals, and pages, ids and widths are integers.
- GameService.CurrentGameData: it models `mmId` and `gmId` as integers, and it gives every hand a `NextHand` block. Only the last hand's block is read. A missing block there would make the source throw, and that throw is not modelled. The blocks of earlier hands are never read, so their absence changes nothing.
- HistoryService.GameHands: it models a missing `data` as the only malformed payload. A `data` that is not an array is not modelled.
- BarChart.MaxAbs: it requires non-empty data. The component returns early on empty data, so `Math.max()` of nothing is never reached.
- DataGrid.Body: a row's other properties are modelled as a map from names to text. The cell contents built from them (`row[column.key]`, `column.render`) are not modelled.

=== FILE: bar_chart.dfy ===
/**
 The profit bar chart of the dashboard: every bar's height and colour is
 derived from its profit relative to the largest magnitude in the data set
 being shown. Values are exact reals; colour classes are an enumeration.
 */
module BarChart {
  import opened Seqs

  /** Colour intensity step, 1 (palest) to 4 (strongest). */
  type Tier = t: int | 1 <= t <= 4 witness 1

  /** The bar's colour class: grey for zero, otherwise a green or red shade. */
  datatype BarColour = Neutral | Green(tier: Tier) | Red(tier: Tier)

  /** The colour of the text label under a bar. */
  datatype LabelColour = LabelRed | LabelGreen | LabelGray

  /** The label: whether a "+" is written before the number, and its colour. */
  datatype Label = Label(plus: bool, colour: LabelColour)

  datatype Bar = Bar(height: real, colour: BarColour, text: Label)

  /** What the component draws: the shared scale and one bar per datum. */
  datatype Chart = Chart(maxAbs: real, bars: seq<Bar>)

  /** The shortest bar, in percent of the chart height. */
  const MinHeight: real := 10.0

  function Abs(x: real): (r: real)
    ensures r >= 0.0 && (r == x || r == -x)
  {
    if x < 0.0 then -x else x
  }

  /** `Math.max(...s)`. */
  function SeqMax(s: seq<real>): (m: real)
    requires |s| > 0
    ensures m in s
    ensures forall i :: 0 <= i < |s| ==> s[i] <= m
  {
    if |s| == 1 then s[0]
    else
      var rest := SeqMax(s[1..]);
      if s[0] < rest then rest else s[0]
  }

  /** `Math.min(...s)`. */
  function SeqMin(s: seq<real>): (m: real)
    requires |s| > 0
    ensures m in s
    ensures forall i :: 0 <= i < |s| ==> m <= s[i]
  {
    if |s| == 1 then s[0]
    else
      var rest := SeqMin(s[1..]);
      if rest < s[0] then rest else s[0]
  }

  /** The shared scale: the larger magnitude of the extremes, or 1 when
      every value is zero (the `|| 1` guard against dividing by zero). */
  function MaxAbs(profits: seq<real>): (m: real)
    requires |profits| > 0
    ensures m > 0.0
    ensures forall i :: 0 <= i < |profits| ==> Abs(profits[i]) <= m
    ensures (forall i :: 0 <= i < |profits| ==> profits[i] == 0.0) ==> m == 1.0
    ensures (exists i :: 0 <= i < |profits| && profits[i] != 0.0) ==>
      exists i :: 0 <= i < |profits| && Abs(profits[i]) == m
  {
    var hi := Abs(SeqMax(profits));
    var lo := Abs(SeqMin(profits));
    var m := if hi < lo then lo else hi;
    if m == 0.0 then 1.0 else m
  }

  /** `|p| / maxAbs`. */
  function Intensity(p: real, maxAbs: real): (r: real)
    requires maxAbs > 0.0
    ensures r >= 0.0
    ensures r * maxAbs == Abs(p)
    ensures Abs(p) <= maxAbs ==> r <= 1.0
  {
    Abs(p) / maxAbs
  }

  /** `getHeight`: the bar's share of the scale in percent, at least 10. */
  function Height(p: real, maxAbs: real): (h: real)
    requires maxAbs > 0.0
    ensures h >= MinHeight
    ensures h >= Intensity(p, maxAbs) * 100.0
    ensures h == MinHeight || h == Intensity(p, maxAbs) * 100.0
  {
    var percentage := Intensity(p, maxAbs) * 100.0;
    if MinHeight < percentage then percentage else MinHeight
  }

  /** The four-step intensity scale. */
  function TierOf(intensity: real): (t: Tier)
    ensures t == 4 <==> intensity > 0.75
    ensures t == 3 <==> 0.5 < intensity <= 0.75
    ensures t == 2 <==> 0.25 < intensity <= 0.5
    ensures t == 1 <==> intensity <= 0.25
  {
    if intensity > 0.75 then 4
    else if intensity > 0.5 then 3
    else if intensity > 0.25 then 2
    else 1
  }

  /** `getColorClass`. */
  function ColourOf(p: real, maxAbs: real): (c: BarColour)
    requires maxAbs > 0.0
    ensures c == Neutral <==> p == 0.0
    ensures c.Green? <==> p > 0.0
    ensures c.Red? <==> p < 0.0
    ensures c != Neutral ==> c.tier == TierOf(Intensity(p, maxAbs))
  {
    if p == 0.0 then Neutral
    else
      var tier := TierOf(Intensity(p, maxAbs));
      if p > 0.0 then Green(tier) else Red(tier)
  }

  /** The label under a bar. */
  function LabelOf(p: real): (l: Label)
    ensures l.plus <==> p > 0.0
    ensures l.colour == LabelRed <==> p < 0.0
    ensures l.colour == LabelGreen <==> p > 0.0
    ensures l.colour == LabelGray <==> p == 0.0
  {
    Label(p > 0.0, if p < 0.0 then LabelRed else if p > 0.0 then LabelGreen else LabelGray)
  }

  /** The component: nothing for an empty data set, otherwise one bar per
      profit, in data order, all measured against the same scale. */
  function Render(profits: seq<real>): (c: Option<Chart>)
    ensures c.None? <==> |profits| == 0
    ensures c.Some? ==>
      && c.value.maxAbs == MaxAbs(profits)
      && |c.value.bars| == |profits|
      && forall i :: 0 <= i < |profits| ==>
           c.value.bars[i] == Bar(Height(profits[i], c.value.maxAbs),
                                  ColourOf(profits[i], c.value.maxAbs),
                                  LabelOf(profits[i]))
  {
    if |profits| == 0 then None
    else
      var maxAbs := MaxAbs(profits);
      Some(Chart(maxAbs, seq(|profits|, i requires 0 <= i < |profits| =>
        Bar(Height(profits[i], maxAbs), ColourOf(profits[i], maxAbs), LabelOf(profits[i])))))
  }

  // ---------------------------------------------------------------------
  // Properties of the rendered chart

  /** Every bar is between 10% and 100% tall. */
  lemma HeightsBounded(profits: seq<real>)
    requires |profits| > 0
    ensures forall i :: 0 <= i < |profits| ==>
      MinHeight <= Render(profits).value.bars[i].height <= 100.0
  {
    var m := MaxAbs(profits);
    forall i | 0 <= i < |profits|
      ensures Height(profits[i], m) <= 100.0
    {
      assert Intensity(profits[i], m) <= 1.0;
    }
  }

  /** The datum of largest magnitude reaches the top; unless every value is
      zero, some bar does. */
  lemma LargestIsFullHeight(profits: seq<real>)
    requires |profits| > 0
    ensures forall i :: 0 <= i < |profits| && Abs(profits[i]) == Render(profits).value.maxAbs ==>
      Render(profits).value.bars[i].height == 100.0
    ensures (exists i :: 0 <= i < |profits| && profits[i] != 0.0) ==>
      exists i :: 0 <= i < |profits| && Render(profits).value.bars[i].height == 100.0
  {
    var m := MaxAbs(profits);
    forall i | 0 <= i < |profits| && Abs(profits[i]) == m
      ensures Height(profits[i], m) == 100.0
    {
      FullScaleIsFullHeight(profits[i], m);
    }
    if exists i :: 0 <= i < |profits| && profits[i] != 0.0 {
      var i :| 0 <= i < |profits| && Abs(profits[i]) == m;
      FullScaleIsFullHeight(profits[i], m);
    }
  }

  lemma FullScaleIsFullHeight(p: real, maxAbs: real)
    requires maxAbs > 0.0 && Abs(p) == maxAbs
    ensures Height(p, maxAbs) == 100.0
  {
    assert Intensity(p, maxAbs) == maxAbs / maxAbs;
  }

  /** When every value is zero, every bar is a grey 10% stub. */
  lemma AllZeroIsFlat(profits: seq<real>)
    requires |profits| > 0
    requires forall i :: 0 <= i < |profits| ==> profits[i] == 0.0
    ensures Render(profits).value.maxAbs == 1.0
    ensures forall i :: 0 <= i < |profits| ==>
      Render(profits).value.bars[i].height == MinHeight
      && Render(profits).value.bars[i].colour == Neutral
  {
  }

  /** The tier never decreases as the intensity grows. */
  lemma TierMonotone(a: real, b: real)
    requires a <= b
    ensures TierOf(a) <= TierOf(b)
  {
  }

  /** Within one chart, a bar of larger magnitude is at least as tall and,
      on the same side of zero, at least as dark. */
  lemma LargerMagnitudeNotWeaker(p: real, q: real, maxAbs: real)
    requires maxAbs > 0.0
    requires Abs(p) <= Abs(q)
    ensures Height(p, maxAbs) <= Height(q, maxAbs)
    ensures (p > 0.0 && q > 0.0) || (p < 0.0 && q < 0.0) ==>
      ColourOf(p, maxAbs).tier <= ColourOf(q, maxAbs).tier
  {
    assert Intensity(p, maxAbs) <= Intensity(q, maxAbs) by {
      DivMonotone(Abs(p), Abs(q), maxAbs);
    }
    TierMonotone(Intensity(p, maxAbs), Intensity(q, maxAbs));
  }

  lemma DivMonotone(x: real, y: real, d: real)
    requires d > 0.0 && x <= y
    ensures x / d <= y / d
  {
  }

  // ---------------------------------------------------------------------
  // Worked examples

  /** [10, -20, 5]: scale 20, heights 50/100/25, tiers 2/4/1. */
  lemma ExampleMixed()
    ensures Render([10.0, -20.0, 5.0]).value.maxAbs == 20.0
    ensures Render([10.0, -20.0, 5.0]).value.bars
         == [Bar(50.0, Green(2), Label(true, LabelGreen)),
             Bar(100.0, Red(4), Label(false, LabelRed)),
             Bar(25.0, Green(1), Label(true, LabelGreen))]
  {
    var s := [10.0, -20.0, 5.0];
    assert s[1..] == [-20.0, 5.0];
    assert s[1..][1..] == [5.0];
    assert SeqMax(s) == 10.0;
    assert SeqMin(s) == -20.0;
  }

  /** [0, 0, 0]: scale 1, every bar a grey 10% stub. */
  lemma ExampleAllZero()
    ensures Render([0.0, 0.0, 0.0]).value.maxAbs == 1.0
    ensures Render([0.0, 0.0, 0.0]).value.bars
         == [Bar(10.0, Neutral, Label(false, LabelGray)),
             Bar(10.0, Neutral, Label(false, LabelGray)),
             Bar(10.0, Neutral, Label(false, LabelGray))]
  {
    AllZeroIsFlat([0.0, 0.0, 0.0]);
  }
}

=== FILE: breakpoint.dfy ===
/**
 The responsive breakpoint of `useBreakpoint` (the Tailwind screen names) as a
 function of the window width, and the "at least this wide" test of
 `useIsDesktop`. The resize listener that re-runs the classification is not
 modelled; the width is the input.
 */
module Breakpoint {

  datatype Breakpoint = XS | SM | MD | LG | XL | XXL  // 'xs' .. '2xl'

  /** `breakpointOrder`, narrowest first. */
  const BreakpointOrder: seq<Breakpoint> := [XS, SM, MD, LG, XL, XXL]

  /** The smallest width classified as each breakpoint. */
  function MinWidth(bp: Breakpoint): nat
  {
    match bp
    case XS => 0
    case SM => 640
    case MD => 768
    case LG => 1024
    case XL => 1280
    case XXL => 1536
  }

  /** `breakpointOrder.indexOf(bp)`: the position of `bp` in the order. */
  function IndexOf(bp: Breakpoint): (i: nat)
    ensures i < |BreakpointOrder| && BreakpointOrder[i] == bp
    ensures forall j :: 0 <= j < i ==> BreakpointOrder[j] != bp
  {
    match bp
    case XS => 0
    case SM => 1
    case MD => 2
    case LG => 3
    case XL => 4
    case XXL => 5
  }

  /** `updateBreakpoint`: the width bands `[0,640)`, `[640,768)`,
      `[768,1024)`, `[1024,1280)`, `[1280,1536)` and `[1536,inf)`. */
  function Classify(width: nat): (bp: Breakpoint)
    ensures MinWidth(bp) <= width
    ensures IndexOf(bp) + 1 < |BreakpointOrder| ==> width < MinWidth(BreakpointOrder[IndexOf(bp) + 1])
  {
    if width < 640 then XS
    else if width < 768 then SM
    else if width < 1024 then MD
    else if width < 1280 then LG
    else if width < 1536 then XL
    else XXL
  }

  /** The thresholds grow with the order, so the bands are disjoint and
      every width falls in exactly one of them. */
  lemma ClassifyUnique(width: nat, bp: Breakpoint)
    ensures Classify(width) == bp <==>
      MinWidth(bp) <= width
      && (IndexOf(bp) + 1 < |BreakpointOrder| ==> width < MinWidth(BreakpointOrder[IndexOf(bp) + 1]))
  {
  }

  /** A wider window never gets a narrower breakpoint. */
  lemma ClassifyMonotone(w1: nat, w2: nat)
    requires w1 <= w2
    ensures IndexOf(Classify(w1)) <= IndexOf(Classify(w2))
  {
  }

  /** `useIsDesktop(target)` for the current width. */
  predicate IsDesktop(width: nat, target: Breakpoint)
  {
    IndexOf(Classify(width)) >= IndexOf(target)
  }

  /** `useIsDesktop(target)` holds exactly from the target's first width on. */
  lemma IsDesktopIffWideEnough(width: nat, target: Breakpoint)
    ensures IsDesktop(width, target) <==> width >= MinWidth(target)
  {
  }

  /** Every breakpoint is "at least" itself. */
  lemma IsDesktopReflexive(width: nat)
    ensures IsDesktop(width, Classify(width))
  {
  }

  /** With the default target 'lg', the desktop layout starts at 1024 pixels. */
  lemma IsDesktopDefault(width: nat)
    ensures IsDesktop(width, LG) <==> width >= 1024
  {
  }
}

=== FILE: data_grid.dfy ===
/**
 The display decisions of the generic data grid: which table body is drawn
 (nothing while loading, the error line, the "no data" line or the rows),
 how wide the full-width lines are, which rows are expanded, which action
 buttons a row shows and which key identifies a row. Cell contents and
 styling are not modelled.
 */
module DataGrid {
  import opened Seqs

  /** A row identifier: the source allows strings and numbers. */
  datatype RowKey = Str(s: string) | Num(n: int)

  /** A data row: its optional `id`, and every other property by name, as
      the column renderers and the actions' `show` tests see them. */
  datatype Row = Row(id: Option<RowKey>, fields: map<string, string>)

  datatype Column = Column(key: string, title: string)

  /** An action button; `show`, when present, decides per row whether it appears. */
  datatype Action = Action(id: string, title: string, show: Option<Row -> bool>)

  /** `expandedRowIds`: absent, an array, or a `Set`. */
  datatype ExpandedIds = NoIds | IdList(list: seq<RowKey>) | IdSet(members: set<RowKey>)

  datatype Props = Props(
    columns: seq<Column>,
    rows: Option<seq<Row>>,
    loading: bool,
    error: Option<string>,       // `string | null`
    actions: seq<Action>,        // defaults to []
    expandedRowIds: ExpandedIds,
    hasExpandedRowRender: bool)  // whether `expandedRowRender` was given

  /** A header cell: a column title or the trailing "ACTIONS" title. */
  datatype HeaderCell = ColumnHeader(title: string) | ActionsHeader

  /** One `<tr>` of the table body. */
  datatype BodyRow =
    | ErrorLine(message: string, colSpan: nat)
    | NoDataLine(colSpan: nat)
    | DataLine(key: RowKey, cellCount: nat, buttons: seq<string>)
    | ExpandedLine(key: RowKey, colSpan: nat)

  // ---------------------------------------------------------------------
  // Row identity and expansion

  /** JavaScript truthiness of a row id: missing, 0 and "" are falsy. */
  predicate Truthy(k: Option<RowKey>)
  {
    k.Some? && k.value != Num(0) && k.value != Str("")
  }

  /** `row.id || idx`. */
  function RowId(row: Row, idx: nat): (k: RowKey)
    ensures Truthy(row.id) ==> k == row.id.value
    ensures !Truthy(row.id) ==> k == Num(idx)
  {
    if Truthy(row.id) then row.id.value else Num(idx)
  }

  /** `isRowExpanded`: never without an id collection, otherwise membership. */
  predicate IsRowExpanded(ids: ExpandedIds, rowId: RowKey)
  {
    match ids
    case NoIds => false
    case IdList(list) => rowId in list
    case IdSet(members) => rowId in members
  }

  /** The array and the `Set` form of the same ids expand the same rows,
      and without ids no row is expanded. */
  lemma ExpansionIsMembership(list: seq<RowKey>, rowId: RowKey)
    ensures IsRowExpanded(IdList(list), rowId) == IsRowExpanded(IdSet(set k | k in list), rowId)
    ensures !IsRowExpanded(NoIds, rowId)
  {
  }

  // ---------------------------------------------------------------------
  // Header and column span

  function HeaderCells(p: Props): (h: seq<HeaderCell>)
    ensures |h| == |p.columns| + (if |p.actions| > 0 then 1 else 0)
    ensures forall i :: 0 <= i < |p.columns| ==> h[i] == ColumnHeader(p.columns[i].title)
    ensures ActionsHeader in h <==> |p.actions| > 0
  {
    seq(|p.columns|, i requires 0 <= i < |p.columns| => ColumnHeader(p.columns[i].title))
    + (if |p.actions| > 0 then [ActionsHeader] else [])
  }

  /** `columns.length + (actions.length > 0 ? 1 : 0)`. */
  function ColSpan(p: Props): (n: nat)
    ensures n == |HeaderCells(p)|
  {
    |p.columns| + (if |p.actions| > 0 then 1 else 0)
  }

  // ---------------------------------------------------------------------
  // Action buttons

  /** Whether an action's button appears for a row. */
  predicate Shown(a: Action, row: Row)
  {
    a.show.None? || a.show.value(row)
  }

  /** The actions whose buttons a row shows, in declaration order. */
  function VisibleActions(actions: seq<Action>, row: Row): (vs: seq<Action>)
    ensures |vs| <= |actions|
    ensures forall a :: a in vs ==> a in actions && Shown(a, row)
    ensures forall a :: a in actions && Shown(a, row) ==> a in vs
  {
    Filter(actions, (a: Action) => Shown(a, row))
  }

  /** An action that declares `show` and refuses the row has no button. */
  lemma HiddenActionsAbsent(actions: seq<Action>, row: Row, a: Action)
    requires a.show.Some? && !a.show.value(row)
    ensures a !in VisibleActions(actions, row)
  {
  }

  /** The buttons keep the declaration order: splitting the action list
      splits the visible list the same way. */
  lemma VisibleActionsAppend(a: seq<Action>, b: seq<Action>, row: Row)
    ensures VisibleActions(a + b, row) == VisibleActions(a, row) + VisibleActions(b, row)
  {
    FilterAppend(a, b, (x: Action) => Shown(x, row));
  }

  function Ids(actions: seq<Action>): (ids: seq<string>)
    ensures |ids| == |actions|
    ensures forall i :: 0 <= i < |actions| ==> ids[i] == actions[i].id
  {
    seq(|actions|, i requires 0 <= i < |actions| => actions[i].id)
  }

  // ---------------------------------------------------------------------
  // Body

  predicate ErrorSet(p: Props)
  {
    p.error.Some? && p.error.value != ""
  }

  predicate RowsEmpty(p: Props)
  {
    p.rows.None? || |p.rows.value| == 0
  }

  /** The three independent guards of the table body. */
  predicate ShowsError(p: Props) { ErrorSet(p) && !p.loading }
  predicate ShowsNoData(p: Props) { !p.loading && !ErrorSet(p) && RowsEmpty(p) }
  predicate ShowsRows(p: Props) { !p.loading && !ErrorSet(p) && !RowsEmpty(p) }

  /** The ids of the buttons drawn in a row's actions cell, in declaration
      order; no actions cell at all when there are no actions. */
  function RowButtons(p: Props, row: Row): seq<string>
  {
    if |p.actions| > 0 then Ids(VisibleActions(p.actions, row)) else []
  }

  /** Whether a row is followed by its expansion line. */
  predicate Expands(p: Props, key: RowKey)
  {
    p.hasExpandedRowRender && IsRowExpanded(p.expandedRowIds, key)
  }

  /** The `<tr>`s of one data row: the row itself, then its expansion when
      a renderer is given and the row is expanded. */
  function RowLines(p: Props, row: Row, idx: nat): (lines: seq<BodyRow>)
    ensures 1 <= |lines| <= 2
    ensures lines[0].DataLine? && lines[0].key == RowId(row, idx)
    ensures lines[0].cellCount == ColSpan(p)
    ensures lines[0].buttons == if |p.actions| > 0 then Ids(VisibleActions(p.actions, row)) else []
    ensures |lines| == 2 <==> p.hasExpandedRowRender && IsRowExpanded(p.expandedRowIds, RowId(row, idx))
    ensures |lines| == 2 ==> lines[1] == ExpandedLine(RowId(row, idx), ColSpan(p))
  {
    var key := RowId(row, idx);
    [DataLine(key, ColSpan(p), RowButtons(p, row))]
    + (if Expands(p, key) then [ExpandedLine(key, ColSpan(p))] else [])
  }

  /** The lines of `rows[from..]`, numbering rows from `from`. */
  function RowsFrom(p: Props, rows: seq<Row>, from: nat): (lines: seq<BodyRow>)
    requires from <= |rows|
    ensures |rows| - from <= |lines| <= 2 * (|rows| - from)
    ensures forall l :: l in lines ==> l.DataLine? || l.ExpandedLine?
    ensures |lines| > 0 ==> lines[0].DataLine?
    decreases |rows| - from
  {
    if from == |rows| then [] else RowLines(p, rows[from], from) + RowsFrom(p, rows, from + 1)
  }

  /** `<tbody>`: the error line, the "no data" line and the rows, each under its own guard. */
  function Body(p: Props): (b: seq<BodyRow>)
    ensures p.loading ==> b == []
    ensures ShowsError(p) ==> b == [ErrorLine(p.error.value, ColSpan(p))]
    ensures ShowsNoData(p) ==> b == [NoDataLine(ColSpan(p))]
    ensures ShowsRows(p) ==> b == RowsFrom(p, p.rows.value, 0)
  {
    (if ShowsError(p) then [ErrorLine(p.error.value, ColSpan(p))] else [])
    + (if ShowsNoData(p) then [NoDataLine(ColSpan(p))] else [])
    + (if ShowsRows(p) then RowsFrom(p, p.rows.value, 0) else [])
  }

  /** The body states exclude each other, and one of them renders unless loading. */
  lemma BodyStatesExclusive(p: Props)
    ensures !(ShowsError(p) && ShowsNoData(p))
    ensures !(ShowsError(p) && ShowsRows(p))
    ensures !(ShowsNoData(p) && ShowsRows(p))
    ensures !p.loading <==> ShowsError(p) || ShowsNoData(p) || ShowsRows(p)
  {
  }

  /** The keys of the data lines among some body lines, in order. */
  function DataKeys(lines: seq<BodyRow>): seq<RowKey>
  {
    if |lines| == 0 then []
    else (if lines[0].DataLine? then [lines[0].key] else []) + DataKeys(lines[1..])
  }

  lemma {:induction false} DataKeysAppend(a: seq<BodyRow>, b: seq<BodyRow>)
    ensures DataKeys(a + b) == DataKeys(a) + DataKeys(b)
  {
    if |a| > 0 {
      assert (a + b)[0] == a[0];
      assert (a + b)[1..] == a[1..] + b;
      DataKeysAppend(a[1..], b);
    } else {
      assert a + b == b;
    }
  }

  /** The keys `row.id || idx` of `rows[from..]`, numbering rows from `from`. */
  function KeysFrom(rows: seq<Row>, from: nat): (ks: seq<RowKey>)
    requires from <= |rows|
  {
    seq(|rows| - from, i requires 0 <= i < |rows| - from => RowId(rows[from + i], from + i))
  }

  lemma KeysFromSplit(rows: seq<Row>, from: nat)
    requires from < |rows|
    ensures KeysFrom(rows, from) == [RowId(rows[from], from)] + KeysFrom(rows, from + 1)
  {
  }

  /** One data line per row, in row order, keyed by `row.id || idx`. */
  lemma {:induction false} RowsFromKeys(p: Props, rows: seq<Row>, from: nat)
    requires from <= |rows|
    ensures DataKeys(RowsFrom(p, rows, from)) == KeysFrom(rows, from)
    decreases |rows| - from
  {
    if from < |rows| {
      var lines := RowLines(p, rows[from], from);
      var rest := RowsFrom(p, rows, from + 1);
      assert RowsFrom(p, rows, from) == lines + rest;
      RowsFromKeys(p, rows, from + 1);
      DataKeysAppend(lines, rest);
      RowLinesKeys(p, rows[from], from);
      KeysFromSplit(rows, from);
    }
  }

  /** A row contributes exactly one data line, whether or not it is expanded. */
  lemma RowLinesKeys(p: Props, row: Row, idx: nat)
    ensures DataKeys(RowLines(p, row, idx)) == [RowId(row, idx)]
  {
    var lines := RowLines(p, row, idx);
    if |lines| == 2 {
      assert lines[1..][1..] == [];
      assert DataKeys(lines[1..]) == [];
    } else {
      assert lines[1..] == [];
    }
  }

  /** Every full-width line spans exactly the header, and every data line
      has one cell per header cell. */
  lemma {:induction false} RowsFromWidths(p: Props, rows: seq<Row>, from: nat)
    requires from <= |rows|
    ensures forall l :: l in RowsFrom(p, rows, from) ==>
      (l.DataLine? && l.cellCount == |HeaderCells(p)|)
      || (l.ExpandedLine? && l.colSpan == |HeaderCells(p)|)
    decreases |rows| - from
  {
    if from < |rows| {
      RowsFromWidths(p, rows, from + 1);
    }
  }

  /** The data lines among some body lines, in order. */
  function DataLines(lines: seq<BodyRow>): seq<BodyRow>
  {
    Filter(lines, (l: BodyRow) => l.DataLine?)
  }

  /** The keys of the expansion lines among some body lines, in order. */
  function ExpandedKeys(lines: seq<BodyRow>): seq<RowKey>
  {
    if |lines| == 0 then []
    else (if lines[0].ExpandedLine? then [lines[0].key] else []) + ExpandedKeys(lines[1..])
  }

  lemma {:induction false} ExpandedKeysAppend(a: seq<BodyRow>, b: seq<BodyRow>)
    ensures ExpandedKeys(a + b) == ExpandedKeys(a) + ExpandedKeys(b)
  {
    if |a| > 0 {
      assert (a + b)[0] == a[0];
      assert (a + b)[1..] == a[1..] + b;
      ExpandedKeysAppend(a[1..], b);
    } else {
      assert a + b == b;
    }
  }

  /** The data line drawn for row `from + i` of `rows`. */
  function DataLinesFrom(p: Props, rows: seq<Row>, from: nat): seq<BodyRow>
    requires from <= |rows|
  {
    seq(|rows| - from, i requires 0 <= i < |rows| - from =>
      DataLine(RowId(rows[from + i], from + i), ColSpan(p), RowButtons(p, rows[from + i])))
  }

  lemma DataLinesFromSplit(p: Props, rows: seq<Row>, from: nat)
    requires from < |rows|
    ensures DataLinesFrom(p, rows, from)
         == [DataLine(RowId(rows[from], from), ColSpan(p), RowButtons(p, rows[from]))]
            + DataLinesFrom(p, rows, from + 1)
  {
  }

  /** A row contributes its own data line, and its key to the expansion
      lines exactly when it expands. */
  lemma RowLinesParts(p: Props, row: Row, idx: nat)
    ensures DataLines(RowLines(p, row, idx))
         == [DataLine(RowId(row, idx), ColSpan(p), RowButtons(p, row))]
    ensures ExpandedKeys(RowLines(p, row, idx))
         == if Expands(p, RowId(row, idx)) then [RowId(row, idx)] else []
  {
    var lines := RowLines(p, row, idx);
    if |lines| == 2 {
      assert lines[1..][1..] == [];
      assert ExpandedKeys(lines[1..][1..]) == [];
      assert DataLines(lines[1..][1..]) == [];
      assert DataLines(lines[1..]) == [];
    } else {
      assert lines[1..] == [];
      assert DataLines(lines[1..]) == [];
    }
  }

  /** Row by row, in order, the body draws each row's data line with its key,
      its width and the buttons of exactly the actions shown for that row. */
  lemma {:induction false} RowsFromDataLines(p: Props, rows: seq<Row>, from: nat)
    requires from <= |rows|
    ensures DataLines(RowsFrom(p, rows, from)) == DataLinesFrom(p, rows, from)
    decreases |rows| - from
  {
    if from < |rows| {
      var lines := RowLines(p, rows[from], from);
      var rest := RowsFrom(p, rows, from + 1);
      assert RowsFrom(p, rows, from) == lines + rest;
      RowsFromDataLines(p, rows, from + 1);
      FilterAppend(lines, rest, (l: BodyRow) => l.DataLine?);
      RowLinesParts(p, rows[from], from);
      DataLinesFromSplit(p, rows, from);
    }
  }

  /** The expansion lines follow, in row order, exactly the rows that expand. */
  lemma {:induction false} RowsFromExpansions(p: Props, rows: seq<Row>, from: nat)
    requires from <= |rows|
    ensures ExpandedKeys(RowsFrom(p, rows, from)) == Filter(KeysFrom(rows, from), (k: RowKey) => Expands(p, k))
    decreases |rows| - from
  {
    if from < |rows| {
      var lines := RowLines(p, rows[from], from);
      var rest := RowsFrom(p, rows, from + 1);
      assert RowsFrom(p, rows, from) == lines + rest;
      RowsFromExpansions(p, rows, from + 1);
      ExpandedKeysAppend(lines, rest);
      RowLinesParts(p, rows[from], from);
      KeysFromSplit(rows, from);
      FilterAppend([RowId(rows[from], from)], KeysFrom(rows, from + 1), (k: RowKey) => Expands(p, k));
      assert [RowId(rows[from], from)][1..] == [];
    }
  }

  /** Every expansion line sits directly under the data line of its own row. */
  predicate ExpansionsUnderRows(lines: seq<BodyRow>)
  {
    forall j :: 0 <= j < |lines| && lines[j].ExpandedLine? ==>
      0 < j && lines[j - 1].DataLine? && lines[j - 1].key == lines[j].key
  }

  lemma ExpansionsUnderRowsAppend(a: seq<BodyRow>, b: seq<BodyRow>)
    requires ExpansionsUnderRows(a) && ExpansionsUnderRows(b)
    requires |b| > 0 ==> b[0].DataLine?
    ensures ExpansionsUnderRows(a + b)
  {
    var ab := a + b;
    forall j | 0 <= j < |ab| && ab[j].ExpandedLine?
      ensures 0 < j && ab[j - 1].DataLine? && ab[j - 1].key == ab[j].key
    {
      if j < |a| {
        assert ab[j] == a[j] && ab[j - 1] == a[j - 1];
      } else {
        assert ab[j] == b[j - |a|];
        assert ab[j - 1] == b[j - |a| - 1];
      }
    }
  }

  /** Each row's `<tr>`s come as one fragment: its expansion line, when drawn,
      follows its own data line directly. */
  lemma {:induction false} RowsFromExpansionsUnderRows(p: Props, rows: seq<Row>, from: nat)
    requires from <= |rows|
    ensures ExpansionsUnderRows(RowsFrom(p, rows, from))
    decreases |rows| - from
  {
    if from < |rows| {
      var lines := RowLines(p, rows[from], from);
      var rest := RowsFrom(p, rows, from + 1);
      assert RowsFrom(p, rows, from) == lines + rest;
      RowsFromExpansionsUnderRows(p, rows, from + 1);
      ExpansionsUnderRowsAppend(lines, rest);
    }
  }

  /** When rows are shown, the body has exactly one data line per row,
      in order, and every line is as wide as the header. */
  lemma BodyRowsMatchData(p: Props)
    requires ShowsRows(p)
    ensures DataKeys(Body(p)) == KeysFrom(p.rows.value, 0)
    ensures DataLines(Body(p)) == DataLinesFrom(p, p.rows.value, 0)
    ensures ExpandedKeys(Body(p)) == Filter(KeysFrom(p.rows.value, 0), (k: RowKey) => Expands(p, k))
    ensures ExpansionsUnderRows(Body(p))
    ensures forall l :: l in Body(p) ==>
      (l.DataLine? && l.cellCount == |HeaderCells(p)|)
      || (l.ExpandedLine? && l.colSpan == |HeaderCells(p)|)
  {
    RowsFromKeys(p, p.rows.value, 0);
    RowsFromWidths(p, p.rows.value, 0);
    RowsFromDataLines(p, p.rows.value, 0);
    RowsFromExpansions(p, p.rows.value, 0);
    RowsFromExpansionsUnderRows(p, p.rows.value, 0);
  }
}

=== FILE: game_service.dfy ===
/**
 The pure part of the game service: turning the backend's list of played hands
 into road cells (`convertResult`) and into the summary shown on the game
 screen (`currentGameData`). The HTTP wrappers around them are not modelled.
 */
module GameService {
  import opened Seqs

  /** The `NextHand` block the backend attaches to every hand: what the
      betting strategy proposes for the following hand. */
  datatype NextHand = NextHand(
    wait: bool,          // truthiness of `NextHand.Wait`
    prediction: string,  // "P", "B" or anything else
    mmStep: int,
    betAmount: real)

  /** One played hand, as it arrives in `ugResultList`. */
  datatype HandRecord = HandRecord(
    id: int,
    winner: string,      // "P", "B", "T" or anything else
    result: string,
    bet: real,
    currentBalance: real,
    profitAmount: real,
    units: real,
    nextHand: NextHand)

  /** The game payload; every field may be missing. */
  datatype GameData = GameData(
    resultList: Option<seq<HandRecord>>,
    startingBalance: Option<real>,
    mmId: Option<int>,
    gmId: Option<int>,
    baseUnit: Option<real>)

  /** A cell of the road grids. The pair flags are never set by this derivation. */
  datatype RoadCell = RoadCell(resultType: int, isBankerPair: bool, isPlayerPair: bool)

  /** The side the summary tells the player to bet next. */
  datatype Prediction = Wait | Player | Banker

  /** One point of the profit graph. */
  datatype GraphPoint = GraphPoint(hand: int, result: string, bet: real)

  /** Per-outcome counters produced by the fold over the hand list. */
  datatype Counters = Counters(player: nat, banker: nat, tie: nat, hands: nat)

  datatype GameSummary = GameSummary(
    prediction: Prediction,
    mmStepIndex: int,
    playerCount: nat,
    bankerCount: nat,
    tieCount: nat,
    handCount: nat,
    startingBalance: real,
    currentBalance: real,
    profitAmount: real,
    betAmount: real,
    units: real,
    mmId: int,
    gameId: int,
    baseUnits: real,
    graphData: seq<GraphPoint>)

  /** The graph placeholder used while no hand has been played. */
  const Placeholder: GraphPoint := GraphPoint(0, "-", 0.0)

  /** JavaScript `x || d` on a number: a missing value and 0 are both falsy. */
  function OrReal(x: Option<real>, d: real): (r: real)
    ensures x.Some? && x.value != 0.0 ==> r == x.value
    ensures x.None? || x.value == 0.0 ==> r == d
  {
    if x.Some? && x.value != 0.0 then x.value else d
  }

  function OrInt(x: Option<int>, d: int): (r: int)
    ensures x.Some? && x.value != 0 ==> r == x.value
    ensures x.None? || x.value == 0 ==> r == d
  {
    if x.Some? && x.value != 0 then x.value else d
  }

  /** `ugResultList || []`: a missing list reads as no hands. */
  function Hands(d: GameData): (hs: seq<HandRecord>)
    ensures d.resultList.Some? ==> hs == d.resultList.value
    ensures d.resultList.None? ==> hs == []
  {
    match d.resultList
    case Some(l) => l
    case None => []
  }

  // ---------------------------------------------------------------------
  // convertResult

  /** The road tag of one winner letter: banker 1, player 2, tie 3, anything
      else 0 (no marker, and no error). */
  function RoadTag(winner: string): (t: int)
    ensures 0 <= t <= 3
    ensures t == 0 <==> winner !in {"B", "P", "T"}
  {
    if winner == "B" then 1
    else if winner == "P" then 2
    else if winner == "T" then 3
    else 0
  }

  /** The winner letter a non-zero tag stands for. */
  function TagWinner(t: int): (w: string)
    requires 1 <= t <= 3
    ensures w in {"B", "P", "T"}
  {
    if t == 1 then "B" else if t == 2 then "P" else "T"
  }

  /** Tags and the three winner letters are in one-to-one correspondence. */
  lemma RoadTagRoundTrip(winner: string, t: int)
    ensures winner in {"B", "P", "T"} ==> TagWinner(RoadTag(winner)) == winner
    ensures 1 <= t <= 3 ==> RoadTag(TagWinner(t)) == t
  {
  }

  /** `convertResult`: one cell per hand, in hand order, pair flags cleared. */
  function ConvertResult(hands: seq<HandRecord>): (cells: seq<RoadCell>)
    ensures |cells| == |hands|
    ensures forall i :: 0 <= i < |hands| ==>
      cells[i].resultType == RoadTag(hands[i].winner)
      && !cells[i].isBankerPair && !cells[i].isPlayerPair
  {
    seq(|hands|, i requires 0 <= i < |hands| => RoadCell(RoadTag(hands[i].winner), false, false))
  }

  /** Converting a longer history extends the previous cells: the road
      only grows at its end. */
  lemma ConvertResultAppend(a: seq<HandRecord>, b: seq<HandRecord>)
    ensures ConvertResult(a + b) == ConvertResult(a) + ConvertResult(b)
  {
  }

  /** Every non-empty road cell can be read back to the hand's winner. */
  lemma ConvertResultDecodes(hands: seq<HandRecord>, i: int)
    requires 0 <= i < |hands|
    ensures ConvertResult(hands)[i].resultType != 0 ==>
      TagWinner(ConvertResult(hands)[i].resultType) == hands[i].winner
    ensures ConvertResult(hands)[i].resultType == 0 <==> hands[i].winner !in {"B", "P", "T"}
  {
  }

  // ---------------------------------------------------------------------
  // currentGameData: the counting fold

  /** The winner letters of a hand list, in order. */
  function Winners(hands: seq<HandRecord>): (ws: seq<string>)
    ensures |ws| == |hands|
    ensures forall i :: 0 <= i < |hands| ==> ws[i] == hands[i].winner
  {
    seq(|hands|, i requires 0 <= i < |hands| => hands[i].winner)
  }

  /** One step of the `forEach`: count the hand, then bump the matching counter. */
  function Step(c: Counters, h: HandRecord): (c': Counters)
    ensures c'.hands == c.hands + 1
    ensures c'.player + c'.banker + c'.tie
         == c.player + c.banker + c.tie + (if h.winner in {"P", "B", "T"} then 1 else 0)
  {
    Counters(
      c.player + (if h.winner == "P" then 1 else 0),
      c.banker + (if h.winner == "B" then 1 else 0),
      c.tie + (if h.winner == "T" then 1 else 0),
      c.hands + 1)
  }

  /** The counters after folding the hands left to right from zero. */
  function Tally(hands: seq<HandRecord>): (c: Counters)
    ensures c.hands == |hands|
    ensures c.player + c.banker + c.tie <= c.hands
    decreases |hands|
  {
    if |hands| == 0 then Counters(0, 0, 0, 0)
    else Step(Tally(hands[..|hands| - 1]), hands[|hands| - 1])
  }

  /** Each counter is the number of occurrences of its letter among the winners. */
  lemma {:induction false} TallyCountsOccurrences(hands: seq<HandRecord>)
    ensures Tally(hands).player == multiset(Winners(hands))["P"]
    ensures Tally(hands).banker == multiset(Winners(hands))["B"]
    ensures Tally(hands).tie == multiset(Winners(hands))["T"]
    decreases |hands|
  {
    if |hands| > 0 {
      var init := hands[..|hands| - 1];
      var last := hands[|hands| - 1];
      TallyCountsOccurrences(init);
      assert Winners(hands) == Winners(init) + [last.winner];
    }
  }

  /** The three counters add up to the hand count exactly when every winner
      is a recognised letter; an unrecognised winner is counted as a hand only. */
  lemma {:induction false} TallyComplete(hands: seq<HandRecord>)
    ensures Tally(hands).player + Tally(hands).banker + Tally(hands).tie == |hands|
        <==> forall i :: 0 <= i < |hands| ==> hands[i].winner in {"P", "B", "T"}
    decreases |hands|
  {
    if |hands| > 0 {
      var init := hands[..|hands| - 1];
      TallyComplete(init);
      assert forall i :: 0 <= i < |init| ==> init[i] == hands[i];
    }
  }

  // ---------------------------------------------------------------------
  // currentGameData: the values read from the last hand

  /** The prediction shown for the next hand: the wait flag forces "Wait",
      otherwise "P" and "B" name a side and anything else means wait. */
  function PredictionOf(next: NextHand): (p: Prediction)
    ensures p == Player <==> !next.wait && next.prediction == "P"
    ensures p == Banker <==> !next.wait && next.prediction == "B"
    ensures p == Wait <==> next.wait || next.prediction !in {"P", "B"}
  {
    var predictionBet := if next.wait then "Wait" else next.prediction;
    if predictionBet == "P" then Player
    else if predictionBet == "B" then Banker
    else Wait
  }

  /** The profit-graph series: one point per hand, in hand order. */
  function GraphData(hands: seq<HandRecord>): (g: seq<GraphPoint>)
    ensures |g| == |hands|
    ensures forall i :: 0 <= i < |hands| ==>
      g[i].hand == hands[i].id && g[i].result == hands[i].result && g[i].bet == hands[i].bet
  {
    seq(|hands|, i requires 0 <= i < |hands| => GraphPoint(hands[i].id, hands[i].result, hands[i].bet))
  }

  /** The series of a prefix of the history is the prefix of the series:
      recomputing from scratch agrees with appending. */
  lemma GraphDataPrefix(hands: seq<HandRecord>, k: int)
    requires 0 <= k <= |hands|
    ensures GraphData(hands[..k]) == GraphData(hands)[..k]
  {
  }

  /** `currentGameData`. */
  function CurrentGameData(d: GameData): (s: GameSummary)
    ensures s.startingBalance == OrReal(d.startingBalance, 0.0)
    ensures s.baseUnits == OrReal(d.baseUnit, 1.0) && s.baseUnits != 0.0
    ensures s.mmId == OrInt(d.mmId, 0) && s.gameId == OrInt(d.gmId, 0)
    ensures s.handCount == |Hands(d)|
    ensures s.playerCount + s.bankerCount + s.tieCount <= s.handCount
    ensures |Hands(d)| == 0 ==>
      && s.prediction == Wait && s.mmStepIndex == 0
      && s.playerCount == 0 && s.bankerCount == 0 && s.tieCount == 0
      && s.currentBalance == 0.0 && s.profitAmount == 0.0
      && s.betAmount == 0.0 && s.units == 0.0
      && s.graphData == [Placeholder]
    ensures |Hands(d)| > 0 ==>
      var last := Hands(d)[|Hands(d)| - 1];
      && s.prediction == PredictionOf(last.nextHand)
      && s.mmStepIndex == last.nextHand.mmStep
      && s.currentBalance == last.currentBalance
      && s.profitAmount == last.profitAmount
      && s.betAmount == last.nextHand.betAmount
      && s.units == last.units
      && s.graphData == GraphData(Hands(d))
  {
    var hands := Hands(d);
    var startingBalance := OrReal(d.startingBalance, 0.0);
    var baseUnits := OrReal(d.baseUnit, 1.0);
    var mmId := OrInt(d.mmId, 0);
    var gameId := OrInt(d.gmId, 0);
    if |hands| == 0 then
      GameSummary(Wait, 0, 0, 0, 0, 0, startingBalance, 0.0, 0.0, 0.0, 0.0,
                  mmId, gameId, baseUnits, [Placeholder])
    else
      var c := Tally(hands);
      var last := hands[|hands| - 1];
      GameSummary(PredictionOf(last.nextHand), last.nextHand.mmStep,
                  c.player, c.banker, c.tie, c.hands,
                  startingBalance, last.currentBalance, last.profitAmount,
                  last.nextHand.betAmount, last.units,
                  mmId, gameId, baseUnits, GraphData(hands))
  }

  /** The summary's counters are the occurrence counts of each letter. */
  lemma SummaryCounts(d: GameData)
    ensures CurrentGameData(d).playerCount == multiset(Winners(Hands(d)))["P"]
    ensures CurrentGameData(d).bankerCount == multiset(Winners(Hands(d)))["B"]
    ensures CurrentGameData(d).tieCount == multiset(Winners(Hands(d)))["T"]
  {
    TallyCountsOccurrences(Hands(d));
  }

  /** The summary counts every hand under one outcome exactly when every
      winner is a recognised letter. */
  lemma SummaryCountsComplete(d: GameData)
    ensures CurrentGameData(d).playerCount + CurrentGameData(d).bankerCount
          + CurrentGameData(d).tieCount == CurrentGameData(d).handCount
        <==> forall i :: 0 <= i < |Hands(d)| ==> Hands(d)[i].winner in {"P", "B", "T"}
  {
    TallyComplete(Hands(d));
  }

  /** Only the last hand decides the prediction and the balances: two
      non-empty histories ending in the same hand agree on them. */
  lemma SummaryReadsLastHandOnly(d1: GameData, d2: GameData)
    requires |Hands(d1)| > 0 && |Hands(d2)| > 0
    requires Hands(d1)[|Hands(d1)| - 1] == Hands(d2)[|Hands(d2)| - 1]
    ensures CurrentGameData(d1).prediction == CurrentGameData(d2).prediction
    ensures CurrentGameData(d1).mmStepIndex == CurrentGameData(d2).mmStepIndex
    ensures CurrentGameData(d1).currentBalance == CurrentGameData(d2).currentBalance
    ensures CurrentGameData(d1).profitAmount == CurrentGameData(d2).profitAmount
    ensures CurrentGameData(d1).betAmount == CurrentGameData(d2).betAmount
    ensures CurrentGameData(d1).units == CurrentGameData(d2).units
  {
  }
}

=== FILE: grid_pagination.dfy ===
/**
 The arithmetic of the pagination bar under the data grid: the record range
 in "Showing a to b of n records", the window of at most five page buttons
 centred on the current page, the first/last buttons with their ellipses and
 the Prev/Next targets.
 */
module GridPagination {

  /** Most page buttons shown in the centred window. */
  const MaxVisiblePages: int := 5

  /** The first and last page number of the centred window (inclusive). */
  datatype Window = Window(startPage: int, endPage: int)

  /** One element of the page-button strip, left to right. */
  datatype Item = PageButton(page: int) | Ellipsis

  // ---------------------------------------------------------------------
  // "Showing a to b of n records"

  /** Number of the first record on the page, or 0 when there are no records. */
  function StartIndex(currentPage: int, pageSize: int, totalRecords: int): (a: int)
    ensures totalRecords <= 0 ==> a == 0
    ensures totalRecords > 0 && currentPage >= 1 && pageSize >= 1 ==> a >= 1
  {
    if totalRecords > 0 then (currentPage - 1) * pageSize + 1 else 0
  }

  /** Number of the last record on the page, never past the last record. */
  function EndIndex(currentPage: int, pageSize: int, totalRecords: int): (b: int)
    ensures b <= totalRecords
    ensures b <= currentPage * pageSize
    ensures b == totalRecords || b == currentPage * pageSize
  {
    if currentPage * pageSize < totalRecords then currentPage * pageSize else totalRecords
  }

  /** On a page that holds records, the range is a non-empty stretch of at
      most one page of records, all of them existing records. */
  lemma RecordRangeWithinTotal(currentPage: int, pageSize: int, totalRecords: int)
    requires currentPage >= 1 && pageSize >= 1
    requires (currentPage - 1) * pageSize < totalRecords
    ensures 1 <= StartIndex(currentPage, pageSize, totalRecords)
    ensures StartIndex(currentPage, pageSize, totalRecords)
         <= EndIndex(currentPage, pageSize, totalRecords)
         <= totalRecords
    ensures EndIndex(currentPage, pageSize, totalRecords)
          - StartIndex(currentPage, pageSize, totalRecords) + 1 <= pageSize
  {
    assert currentPage * pageSize == (currentPage - 1) * pageSize + pageSize;
    assert (currentPage - 1) * pageSize >= 0;
  }

  /** Consecutive pages tile the records: page 1 starts at record 1, each
      page starts right after the previous one ends, each page starts
      `pageSize` records after the one before, and a full page holds
      exactly `pageSize` records. A page past the last
      record shows an inverted range ("Showing 21 to 20"). */
  lemma RecordRangeTiles(currentPage: int, pageSize: int, totalRecords: int)
    requires currentPage >= 1 && pageSize >= 1
    ensures totalRecords > 0 ==> StartIndex(1, pageSize, totalRecords) == 1
    ensures currentPage * pageSize < totalRecords ==>
      StartIndex(currentPage + 1, pageSize, totalRecords)
        == EndIndex(currentPage, pageSize, totalRecords) + 1
    ensures currentPage * pageSize <= totalRecords ==>
      EndIndex(currentPage, pageSize, totalRecords)
        - StartIndex(currentPage, pageSize, totalRecords) + 1 == pageSize
    ensures totalRecords > 0 ==>
      StartIndex(currentPage + 1, pageSize, totalRecords)
        == StartIndex(currentPage, pageSize, totalRecords) + pageSize
    ensures totalRecords > 0 && (currentPage - 1) * pageSize >= totalRecords ==>
      StartIndex(currentPage, pageSize, totalRecords) > EndIndex(currentPage, pageSize, totalRecords)
  {
  }

  // ---------------------------------------------------------------------
  // The centred window

  /** `getVisiblePageRange`. */
  function VisiblePageRange(currentPage: int, totalPages: int): (w: Window)
    ensures 1 <= w.startPage
    ensures w.endPage <= totalPages
    ensures w.endPage - w.startPage + 1 <= MaxVisiblePages
    ensures 3 <= currentPage <= totalPages - 2 ==> w == Window(currentPage - 2, currentPage + 2)
    ensures currentPage <= 3 && totalPages >= MaxVisiblePages ==> w == Window(1, MaxVisiblePages)
    ensures totalPages - 2 <= currentPage <= totalPages && totalPages >= MaxVisiblePages ==>
      w == Window(totalPages - MaxVisiblePages + 1, totalPages)
  {
    var startPage := Max(1, currentPage - MaxVisiblePages / 2);
    var endPage := Min(totalPages, startPage + MaxVisiblePages - 1);
    if endPage - startPage + 1 < MaxVisiblePages then
      Window(Max(1, endPage - MaxVisiblePages + 1), endPage)
    else
      Window(startPage, endPage)
  }

  function Max(a: int, b: int): int { if a < b then b else a }
  function Min(a: int, b: int): int { if a < b then a else b }

  /** With at least five pages and a valid current page, the window is
      exactly five pages wide. */
  lemma WindowFullWidth(currentPage: int, totalPages: int)
    requires totalPages >= MaxVisiblePages
    requires 1 <= currentPage <= totalPages
    ensures VisiblePageRange(currentPage, totalPages).endPage
          - VisiblePageRange(currentPage, totalPages).startPage + 1 == MaxVisiblePages
  {
  }

  /** A valid current page is always inside the window. */
  lemma WindowContainsCurrent(currentPage: int, totalPages: int)
    requires 1 <= currentPage <= totalPages
    ensures VisiblePageRange(currentPage, totalPages).startPage
         <= currentPage
         <= VisiblePageRange(currentPage, totalPages).endPage
  {
  }

  /** With fewer than five pages, the window is every page. */
  lemma WindowShowsAllFewPages(currentPage: int, totalPages: int)
    requires 1 <= totalPages < MaxVisiblePages
    ensures VisiblePageRange(currentPage, totalPages) == Window(1, totalPages)
  {
  }

  // ---------------------------------------------------------------------
  // First / last buttons and ellipses

  predicate ShowFirst(w: Window) { w.startPage > 1 }
  predicate LeadingEllipsis(w: Window) { ShowFirst(w) && w.startPage > 2 }
  predicate ShowLast(w: Window, totalPages: int) { w.endPage < totalPages }
  predicate TrailingEllipsis(w: Window, totalPages: int) {
    ShowLast(w, totalPages) && w.endPage < totalPages - 1
  }

  /** The window's page buttons, `startPage` through `endPage`. */
  function WindowButtons(startPage: int, endPage: int): (r: seq<Item>)
    ensures |r| == if endPage < startPage then 0 else endPage - startPage + 1
    ensures forall i :: 0 <= i < |r| ==> r[i] == PageButton(startPage + i)
    decreases endPage - startPage
  {
    if endPage < startPage then [] else [PageButton(startPage)] + WindowButtons(startPage + 1, endPage)
  }

  /** The first-page button and its ellipsis, when the window leaves page 1 out. */
  function FirstPart(w: Window): seq<Item>
  {
    if ShowFirst(w) then [PageButton(1)] + (if LeadingEllipsis(w) then [Ellipsis] else []) else []
  }

  /** The ellipsis and the last-page button, when the window leaves the last page out. */
  function LastPart(w: Window, totalPages: int): seq<Item>
  {
    if ShowLast(w, totalPages) then (if TrailingEllipsis(w, totalPages) then [Ellipsis] else []) + [PageButton(totalPages)] else []
  }

  /** The whole strip between Prev and Next, as rendered. */
  function Strip(currentPage: int, totalPages: int): seq<Item>
  {
    var w := VisiblePageRange(currentPage, totalPages);
    FirstPart(w) + WindowButtons(w.startPage, w.endPage) + LastPart(w, totalPages)
  }

  /** The page numbers of a strip, left to right. */
  function Pages(items: seq<Item>): (ps: seq<int>)
    ensures |ps| <= |items|
  {
    if |items| == 0 then []
    else (if items[0].PageButton? then [items[0].page] else []) + Pages(items[1..])
  }

  predicate StrictlyIncreasing(ps: seq<int>)
  {
    forall i, j :: 0 <= i < j < |ps| ==> ps[i] < ps[j]
  }

  lemma {:induction false} PagesAppend(a: seq<Item>, b: seq<Item>)
    ensures Pages(a + b) == Pages(a) + Pages(b)
  {
    if |a| > 0 {
      assert (a + b)[0] == a[0];
      assert (a + b)[1..] == a[1..] + b;
      PagesAppend(a[1..], b);
    } else {
      assert a + b == b;
    }
  }

  lemma {:induction false} PagesOfWindow(startPage: int, endPage: int)
    ensures Pages(WindowButtons(startPage, endPage))
         == seq(if endPage < startPage then 0 else endPage - startPage + 1, i => startPage + i)
    decreases endPage - startPage
  {
    if endPage >= startPage {
      PagesOfWindow(startPage + 1, endPage);
      var r := WindowButtons(startPage, endPage);
      assert r[1..] == WindowButtons(startPage + 1, endPage);
    }
  }

  lemma IncreasingConcat(a: seq<int>, b: seq<int>)
    requires StrictlyIncreasing(a) && StrictlyIncreasing(b)
    requires |a| > 0 && |b| > 0 ==> a[|a| - 1] < b[0]
    ensures StrictlyIncreasing(a + b)
  {
    forall i, j | 0 <= i < j < |a + b|
      ensures (a + b)[i] < (a + b)[j]
    {
      if i < |a| && j >= |a| {
        assert a[i] <= a[|a| - 1];
        assert b[0] <= b[j - |a|];
      }
    }
  }

  /** The page numbers of the strip: the first button, the window, the last button. */
  lemma {:induction false} StripPages(currentPage: int, totalPages: int)
    ensures var w := VisiblePageRange(currentPage, totalPages);
      Pages(Strip(currentPage, totalPages))
        == (if ShowFirst(w) then [1] else [])
         + seq(if w.endPage < w.startPage then 0 else w.endPage - w.startPage + 1, i => w.startPage + i)
         + (if ShowLast(w, totalPages) then [totalPages] else [])
  {
    var w := VisiblePageRange(currentPage, totalPages);
    var head := FirstPart(w);
    var mid := WindowButtons(w.startPage, w.endPage);
    var tail := LastPart(w, totalPages);
    PagesAppend(head, mid);
    PagesAppend(head + mid, tail);
    PagesOfWindow(w.startPage, w.endPage);
    FirstPartPages(w);
    LastPartPages(w, totalPages);
  }

  lemma FirstPartPages(w: Window)
    ensures Pages(FirstPart(w)) == if ShowFirst(w) then [1] else []
  {
    if ShowFirst(w) {
      var head := FirstPart(w);
      assert head[1..] == (if LeadingEllipsis(w) then [Ellipsis] else []);
    }
  }

  lemma LastPartPages(w: Window, totalPages: int)
    ensures Pages(LastPart(w, totalPages)) == if ShowLast(w, totalPages) then [totalPages] else []
  {
    if ShowLast(w, totalPages) && TrailingEllipsis(w, totalPages) {
      var tail := LastPart(w, totalPages);
      assert tail[1..] == [PageButton(totalPages)];
    }
  }

  /** No page number is rendered twice: the strip's numbers strictly increase. */
  lemma NoPageTwice(currentPage: int, totalPages: int)
    ensures StrictlyIncreasing(Pages(Strip(currentPage, totalPages)))
  {
    var w := VisiblePageRange(currentPage, totalPages);
    StripPages(currentPage, totalPages);
    WindowBesideEnds(currentPage, totalPages);
    IncreasingParts(w, totalPages);
  }

  /** The three parts' page numbers strictly increase, for any window that
      is not empty whenever a first or last button is drawn beside it. */
  lemma IncreasingParts(w: Window, totalPages: int)
    requires ShowFirst(w) || ShowLast(w, totalPages) ==> w.startPage <= w.endPage
    ensures StrictlyIncreasing((if ShowFirst(w) then [1] else [])
      + seq(if w.endPage < w.startPage then 0 else w.endPage - w.startPage + 1, i => w.startPage + i)
      + (if ShowLast(w, totalPages) then [totalPages] else []))
  {
    var hp: seq<int> := if ShowFirst(w) then [1] else [];
    var n := if w.endPage < w.startPage then 0 else w.endPage - w.startPage + 1;
    var mp := seq(n, i => w.startPage + i);
    var tp: seq<int> := if ShowLast(w, totalPages) then [totalPages] else [];
    IncreasingConcat(hp, mp);
    assert |hp + mp| > 0 && |tp| > 0 ==> (hp + mp)[|hp + mp| - 1] < tp[0];
    IncreasingConcat(hp + mp, tp);
  }

  /** With at least one page, the strip starts at page 1 and ends at the last page. */
  lemma StripSpansAllPages(currentPage: int, totalPages: int)
    requires totalPages >= 1
    ensures var ps := Pages(Strip(currentPage, totalPages));
      |ps| > 0 && ps[0] == 1 && ps[|ps| - 1] == totalPages
  {
    StripPages(currentPage, totalPages);
  }

  /** An ellipsis is drawn exactly where a page next to the first or last
      button is hidden: page 2 after the first button, page `totalPages - 1`
      before the last one. */
  lemma EllipsisIffHiddenPages(currentPage: int, totalPages: int)
    ensures var w := VisiblePageRange(currentPage, totalPages);
      LeadingEllipsis(w) <==> ShowFirst(w) && 2 !in Pages(Strip(currentPage, totalPages))
    ensures var w := VisiblePageRange(currentPage, totalPages);
      var ps := Pages(Strip(currentPage, totalPages));
      TrailingEllipsis(w, totalPages) <==> ShowLast(w, totalPages) && totalPages - 1 !in ps
  {
    var w := VisiblePageRange(currentPage, totalPages);
    StripPages(currentPage, totalPages);
    var ps := Pages(Strip(currentPage, totalPages));
    var n := if w.endPage < w.startPage then 0 else w.endPage - w.startPage + 1;
    var hp: seq<int> := if ShowFirst(w) then [1] else [];
    var mp := seq(n, i => w.startPage + i);
    var tp: seq<int> := if ShowLast(w, totalPages) then [totalPages] else [];
    assert ps == hp + mp + tp;
    if ShowFirst(w) {
      assert w.startPage <= w.endPage;
      if w.startPage == 2 {
        assert mp[0] == 2;
        assert ps[|hp|] == 2;
      } else {
        assert 2 !in mp;
      }
    }
    if ShowLast(w, totalPages) {
      assert w.startPage <= w.endPage;
      if w.endPage == totalPages - 1 {
        assert mp[n - 1] == totalPages - 1;
        assert ps[|hp| + n - 1] == totalPages - 1;
      } else {
        assert totalPages - 1 !in mp;
        assert totalPages - 1 !in hp;
      }
    }
  }

  /** Whenever the window is drawn next to a first or last button, it is
      not empty: a page exists to put beside each ellipsis. */
  lemma WindowBesideEnds(currentPage: int, totalPages: int)
    ensures var w := VisiblePageRange(currentPage, totalPages);
      ShowFirst(w) || ShowLast(w, totalPages) ==> w.startPage <= w.endPage
  {
  }

  /** What the strip draws between its page buttons: every ellipsis sits
      between two page buttons that skip at least one page, and two page
      buttons drawn side by side are consecutive pages. */
  lemma StripEllipsesMarkGaps(currentPage: int, totalPages: int)
    ensures var s := Strip(currentPage, totalPages);
      forall i :: 0 <= i < |s| && s[i].Ellipsis? ==>
        && 0 < i < |s| - 1
        && s[i - 1].PageButton? && s[i + 1].PageButton?
        && s[i - 1].page + 1 < s[i + 1].page
    ensures var s := Strip(currentPage, totalPages);
      forall i :: 0 <= i < |s| - 1 && s[i].PageButton? && s[i + 1].PageButton? ==>
        s[i + 1].page == s[i].page + 1
  {
    var w := VisiblePageRange(currentPage, totalPages);
    WindowBesideEnds(currentPage, totalPages);
    PartsMarkGaps(w, totalPages);
    assert Strip(currentPage, totalPages)
        == FirstPart(w) + WindowButtons(w.startPage, w.endPage) + LastPart(w, totalPages);
  }

  lemma PartsMarkGaps(w: Window, totalPages: int)
    requires ShowFirst(w) || ShowLast(w, totalPages) ==> w.startPage <= w.endPage
    ensures var s := FirstPart(w) + WindowButtons(w.startPage, w.endPage) + LastPart(w, totalPages);
      forall i :: 0 <= i < |s| && s[i].Ellipsis? ==>
        && 0 < i < |s| - 1
        && s[i - 1].PageButton? && s[i + 1].PageButton?
        && s[i - 1].page + 1 < s[i + 1].page
    ensures var s := FirstPart(w) + WindowButtons(w.startPage, w.endPage) + LastPart(w, totalPages);
      forall i :: 0 <= i < |s| - 1 && s[i].PageButton? && s[i + 1].PageButton? ==>
        s[i + 1].page == s[i].page + 1
  {
    var h := FirstPart(w);
    var m := WindowButtons(w.startPage, w.endPage);
    var t := LastPart(w, totalPages);
    var s := h + m + t;
    forall i | 0 <= i < |s| && s[i].Ellipsis?
      ensures 0 < i < |s| - 1 && s[i - 1].PageButton? && s[i + 1].PageButton?
      ensures s[i - 1].page + 1 < s[i + 1].page
    {
      if i < |h| {
        assert h == [PageButton(1), Ellipsis] && i == 1;
        assert s[i + 1] == m[0];
      } else if i < |h| + |m| {
        assert false;
      } else {
        assert t == [Ellipsis, PageButton(totalPages)] && i == |h| + |m|;
        assert s[i - 1] == m[|m| - 1];
        assert s[i + 1] == t[1];
      }
    }
    forall i | 0 <= i < |s| - 1 && s[i].PageButton? && s[i + 1].PageButton?
      ensures s[i + 1].page == s[i].page + 1
    {
      if i + 1 < |h| {
        assert false;
      } else if i < |h| {
        assert h == [PageButton(1)];
        assert s[i + 1] == m[0];
      } else if i + 1 < |h| + |m| {
        assert s[i] == m[i - |h|] && s[i + 1] == m[i + 1 - |h|];
      } else if i < |h| + |m| {
        assert s[i] == m[|m| - 1] && s[i + 1] == t[0];
        assert t == [PageButton(totalPages)];
      } else {
        assert false;
      }
    }
  }

  /** Example: first page of twenty shows 1..5, an ellipsis and a "20" button,
      and no first-page button. */
  lemma StripFirstOfTwenty()
    ensures VisiblePageRange(1, 20) == Window(1, 5)
    ensures !ShowFirst(VisiblePageRange(1, 20))
    ensures Strip(1, 20) == [PageButton(1), PageButton(2), PageButton(3), PageButton(4),
                             PageButton(5), Ellipsis, PageButton(20)]
  {
    assert WindowButtons(1, 5) == [PageButton(1), PageButton(2), PageButton(3), PageButton(4), PageButton(5)];
  }

  // ---------------------------------------------------------------------
  // Prev / Next

  function PrevTarget(currentPage: int): (p: int)
    ensures p >= 1
    ensures currentPage > 1 ==> p == currentPage - 1
  {
    Max(1, currentPage - 1)
  }

  predicate PrevDisabled(currentPage: int) { currentPage == 1 }

  function NextTarget(currentPage: int, totalPages: int): (p: int)
    ensures p <= totalPages
    ensures currentPage < totalPages ==> p == currentPage + 1
  {
    Min(totalPages, currentPage + 1)
  }

  predicate NextDisabled(currentPage: int, totalPages: int) { currentPage == totalPages }

  /** On a valid page, a button is disabled exactly when it would not move,
      and an enabled one moves by one page without leaving the page range. */
  lemma PrevNextDisabledIffStay(currentPage: int, totalPages: int)
    requires 1 <= currentPage <= totalPages
    ensures PrevDisabled(currentPage) <==> PrevTarget(currentPage) == currentPage
    ensures NextDisabled(currentPage, totalPages) <==> NextTarget(currentPage, totalPages) == currentPage
    ensures 1 <= PrevTarget(currentPage) <= totalPages
    ensures 1 <= NextTarget(currentPage, totalPages) <= totalPages
  {
  }

  /** When the server reports no pages at all, the window is empty, no
      page button is drawn, Prev is disabled on page 1, but Next stays
      enabled and targets page 0. */
  lemma NoPagesBehaviour()
    ensures Strip(1, 0) == []
    ensures PrevDisabled(1)
    ensures !NextDisabled(1, 0) && NextTarget(1, 0) == 0
  {
    assert WindowButtons(1, 0) == [];
  }
}

=== FILE: history_service.dfy ===
/**
 The post-processing of `getGameDataById`: the hands of one finished game,
 reduced to those that were won or lost. The request itself is not modelled;
 the response envelope is the input.
 */
module HistoryService {
  import opened Seqs

  /** One hand in the backend's per-game list (only the fields read here). */
  datatype HistoryItem = HistoryItem(id: int, result: string, bet: real)

  /** One hand as handed to the history modal. */
  datatype Hand = Hand(id: int, result: string, bet: real)

  /** The response envelope `{ success, data }`; `data` may be missing. */
  datatype Response = Response(success: bool, data: Option<seq<HistoryItem>>)

  /** Reading `.filter` of a missing `data` throws a TypeError, which the
      service re-throws as its generic error. */
  datatype Error = DataMissing

  /** A hand is kept when it was won or lost (not skipped, not a tie). */
  predicate Qualifies(item: HistoryItem)
  {
    item.result == "Win" || item.result == "Loss"
  }

  /** The field renaming `Id -> id`, `Result -> result`, `Bet -> bet`. */
  function ToHand(item: HistoryItem): Hand
  {
    Hand(item.id, item.result, item.bet)
  }

  function ToHands(items: seq<HistoryItem>): (hs: seq<Hand>)
    ensures |hs| == |items|
    ensures forall i :: 0 <= i < |items| ==> hs[i] == ToHand(items[i])
  {
    seq(|items|, i requires 0 <= i < |items| => ToHand(items[i]))
  }

  /** The qualifying items, renamed, in their original order. */
  function KeptHands(items: seq<HistoryItem>): (hs: seq<Hand>)
    ensures |hs| <= |items|
    ensures forall i :: 0 <= i < |hs| ==> hs[i].result in {"Win", "Loss"}
  {
    var kept := Filter(items, Qualifies);
    assert forall i :: 0 <= i < |kept| ==> kept[i] in kept;
    ToHands(kept)
  }

  /** `getGameDataById` after the response has arrived. */
  function GameHands(r: Response): (out: Result<seq<Hand>, Error>)
    ensures !r.success ==> out == Success([])
    ensures r.success && r.data.None? ==> out == Failure(DataMissing)
    ensures r.success && r.data.Some? ==> out == Success(KeptHands(r.data.value))
  {
    if !r.success then Success([])
    else match r.data
      case None => Failure(DataMissing)
      case Some(items) => Success(KeptHands(items))
  }

  /** Order is preserved: the hands of a concatenation are the hands of each part. */
  lemma KeptHandsAppend(a: seq<HistoryItem>, b: seq<HistoryItem>)
    ensures KeptHands(a + b) == KeptHands(a) + KeptHands(b)
  {
    FilterAppend(a, b, Qualifies);
  }

  /** Nothing is invented and nothing qualifying is lost: a won or lost item
      is in the output, and every output hand is a won or lost input item. */
  lemma KeptHandsMembership(items: seq<HistoryItem>)
    ensures forall x :: x in items && Qualifies(x) ==> ToHand(x) in KeptHands(items)
    ensures forall h :: h in KeptHands(items) ==>
      exists x :: x in items && Qualifies(x) && ToHand(x) == h
  {
    var kept := Filter(items, Qualifies);
    forall x | x in items && Qualifies(x)
      ensures ToHand(x) in KeptHands(items)
    {
      var j :| 0 <= j < |kept| && kept[j] == x;
      assert KeptHands(items)[j] == ToHand(x);
    }
    forall h | h in KeptHands(items)
      ensures exists x :: x in items && Qualifies(x) && ToHand(x) == h
    {
      var j :| 0 <= j < |KeptHands(items)| && KeptHands(items)[j] == h;
      assert kept[j] in kept;
    }
  }

  /** Reading a hand back into the backend's record shape. */
  function ToItem(h: Hand): HistoryItem
  {
    HistoryItem(h.id, h.result, h.bet)
  }

  /** Running the transform again on its own output changes nothing. */
  lemma GameHandsIdempotent(r: Response)
    requires GameHands(r).Success?
    ensures var hs := GameHands(r).value;
      GameHands(Response(true, Some(seq(|hs|, i requires 0 <= i < |hs| => ToItem(hs[i]))))) == Success(hs)
  {
    var hs := GameHands(r).value;
    var items := seq(|hs|, i requires 0 <= i < |hs| => ToItem(hs[i]));
    FilterAllKept(items, Qualifies);
    assert ToHands(items) == hs;
  }
}

=== FILE: responsive_cell_size.dfy ===
/**
 The road-grid cell size chosen by `useResponsiveCellSize` from the window
 width. The resize listener is not modelled; the width is the input.
 */
module ResponsiveCellSize {
  import Breakpoint

  /** `updateCellSize`. */
  function CellSize(width: nat): (size: int)
    ensures size in {18, 22, 25, 26}
    ensures size == 18 <==> width < 640
    ensures size == 26 <==> width >= 1280
  {
    if width < 640 then 18
    else if width < 768 then 22
    else if width < 1024 then 25
    else if width < 1280 then 25
    else 26
  }

  /** The size belonging to each breakpoint: md and lg share 25, xl and 2xl share 26. */
  function SizeFor(bp: Breakpoint.Breakpoint): int
  {
    match bp
    case XS => 18
    case SM => 22
    case MD => 25
    case LG => 25
    case XL => 26
    case XXL => 26
  }

  /** The cell size is a function of the breakpoint alone. */
  lemma CellSizeFollowsBreakpoint(width: nat)
    ensures CellSize(width) == SizeFor(Breakpoint.Classify(width))
  {
  }

  /** A wider window never gets smaller cells. */
  lemma CellSizeMonotone(w1: nat, w2: nat)
    requires w1 <= w2
    ensures CellSize(w1) <= CellSize(w2)
  {
  }

  /** The md and lg bands, 768 to 1279 pixels, both use 25. */
  lemma MiddleBandsShareSize(width: nat)
    requires 768 <= width < 1280
    ensures CellSize(width) == 25
  {
  }
}

=== FILE: seqs.dfy ===
/**
 Small shared vocabulary: an optional value (a JavaScript property that may be
 absent) and the order-preserving `Array.prototype.filter` used by several
 components, with the facts every caller relies on.
 */
module Seqs {

  /** A value that may be absent (`undefined` / `null` in the source). */
  datatype Option<+T> = None | Some(value: T)

  /** The outcome of an operation that can throw: a value or the error it raised. */
  datatype Result<+T, +E> = Success(value: T) | Failure(error: E)

  /** `xs.filter(keep)`: the elements satisfying `keep`, in their original order. */
  function Filter<T>(xs: seq<T>, keep: T -> bool): (r: seq<T>)
    ensures |r| <= |xs|
    ensures forall x :: x in r ==> x in xs && keep(x)
    ensures forall x :: x in xs && keep(x) ==> x in r
  {
    if |xs| == 0 then []
    else if keep(xs[0]) then [xs[0]] + Filter(xs[1..], keep)
    else Filter(xs[1..], keep)
  }

  /** Filtering distributes over concatenation: no element changes place
      relative to another, so the result is the in-order subsequence. */
  lemma {:induction false} FilterAppend<T>(a: seq<T>, b: seq<T>, keep: T -> bool)
    ensures Filter(a + b, keep) == Filter(a, keep) + Filter(b, keep)
  {
    if |a| == 0 {
      assert a + b == b;
    } else {
      assert (a + b)[0] == a[0];
      assert (a + b)[1..] == a[1..] + b;
      FilterAppend(a[1..], b, keep);
    }
  }

  /** When every element passes, the filter is the identity. */
  lemma {:induction false} FilterAllKept<T>(xs: seq<T>, keep: T -> bool)
    requires forall i :: 0 <= i < |xs| ==> keep(xs[i])
    ensures Filter(xs, keep) == xs
  {
    if |xs| > 0 {
      FilterAllKept(xs[1..], keep);
      assert [xs[0]] + xs[1..] == xs;
    }
  }
}
